=== FILE: README.md ===
# Dashboard navigation synchroniser — a Dafny model

This project models the dashboard navigation controller of the eXpand
framework's Dashboard module (`DashboardNavigationController`). The
controller keeps a "Dashboards" group inside the main window's navigation
tree in step with the stored dashboard definitions:

- **Registry reload** (`ReloadDashboardActions`). The registry is rebuilt
  from the active definitions, ordered by index. Each definition becomes a
  navigation item keyed by its `Oid`, with a shortcut to the dashboard viewer
  detail view.
- **Group reconciliation** (`_NavigationController_ItemsInitialized`). The
  group is found by caption among the navigation action's own items, or it is
  created at the root or under a configured parent item. The group's current
  children are drained and the generated items are appended, each carrying a
  `HasRights` flag. All of them go back into the group, stably sorted by
  index.
- **Rights check** (`HasRights`). This is a decision over the platform, the
  model view, the shortcut's object key and the security system's answers.
- **Subscription lifecycle** (`OnFrameAssigned`, `OnDeactivated`). The
  handler is unsubscribed before it is subscribed again, so it is never
  registered twice.

Everything is a value. The navigation tree is a `seq<Item>`, the items of the
navigation action. Nodes are addressed by paths of child positions. A
reconciliation pass is a function from tree, registry, options and
environment to a `PassOutcome`. The security system and object lookup are
uninterpreted functions carried in a `Security` record; each per-object
query may throw, and so may disposing the object space.

Modules: `Optional` (null as `Option`), `NavigationTree` (items, paths,
lookup by id, child replacement), `StableSort` (LINQ `OrderBy` on a nullable
`int` key), `DashboardRegistry`, `Rights`, `GroupSync`, `Lifecycle`.

In these places the code does something one might not expect; the model
follows the code:

- A configured parent item that does not exist does not fall back to the
  root. The new group is attached nowhere (`GroupSync.ParentMissingAttachesNowhere`).
- A missing view on the web platform issues a redirect and then returns
  `true` (`Rights.MissingViewOutcome`).
- The pass does not de-duplicate. The previous children are kept beside the
  new items, so a second pass on the same tree adds the items again
  (`GroupSync.RepeatedPassesAccumulate`). The pass is idempotent only if the
  host rebuilds the tree before each `ItemsInitialized`.
- A missing view on the desktop platform throws during the first check. The
  group has already been created and drained by then, so its previous
  children are no longer in the tree (`GroupSync.MissingViewOnWinAborts`), or
  the new, empty group stays in the tree (`GroupSync.MissingViewOnWinLeavesNewGroup`).
- A group placed under a parent item is never found again: the lookup by
  caption looks only at the navigation action's own items. Every later pass
  therefore nests another new group under the parent
  (`GroupSync.NestedGroupNotFoundAgain`).

The option defaults (`IModelDashboardModuleNavigation`) are the constant
`GroupSync.Defaults`: caption "Dashboards", grouping on, no parent item.

## Model

| member | source | states |
|---|---|---|
| NavigationTree.FindById | Xpand/Xpand.ExpressApp.Modules/Dashboard/Controllers/DashboardNavigationController.cs:67-68 | a parent found by id is a node of the tree that carries that id |
| NavigationTree.FindByIdComplete | Xpand/Xpand.ExpressApp.Modules/Dashboard/Controllers/DashboardNavigationController.cs:67-68 | if any node anywhere in the tree has the id, the lookup succeeds; so a failed lookup means no node has it |
| NavigationTree.SetChildrenAt | Xpand/Xpand.ExpressApp.Modules/Dashboard/Controllers/DashboardNavigationController.cs:74-84 | after the group's children are replaced, the group has exactly the new children and keeps its other fields |
| NavigationTree.SetChildrenElsewhere | Xpand/Xpand.ExpressApp.Modules/Dashboard/Controllers/DashboardNavigationController.cs:74-84 | replacing one node's children leaves every node in a disjoint subtree unchanged |
| NavigationTree.SetChildrenAncestors | Xpand/Xpand.ExpressApp.Modules/Dashboard/Controllers/DashboardNavigationController.cs:74-84 | the ancestors of the changed node change in their children only |
| NavigationTree.SetChildrenFrame | Xpand/Xpand.ExpressApp.Modules/Dashboard/Controllers/DashboardNavigationController.cs:74-84 | replacing one node's children changes no other node: disjoint subtrees are identical and strict ancestors keep their own fields |
| NavigationTree.AddThenFill | Xpand/Xpand.ExpressApp.Modules/Dashboard/Controllers/DashboardNavigationController.cs:69-84 | adding the empty group under a parent and then filling it equals adding the filled group in one step |
| StableSort.SortBy | Xpand/Xpand.ExpressApp.Modules/Dashboard/Controllers/DashboardNavigationController.cs:83-84 | `OrderBy` by index yields a sorted permutation of its input (null index first), and items with equal index keep their input order |
| StableSort.SortOfSorted | Xpand/Xpand.ExpressApp.Modules/Dashboard/Controllers/DashboardNavigationController.cs:83 | `OrderBy` leaves an already sorted sequence as it is |
| StableSort.SortedRunsDetermine | Xpand/Xpand.ExpressApp.Modules/Dashboard/Controllers/DashboardNavigationController.cs:83 | sortedness plus per-index order determine the result, so the three properties above pin down `OrderBy` |
| DashboardRegistry.ActiveOnly | Xpand/Xpand.ExpressApp.Modules/Dashboard/Controllers/DashboardNavigationController.cs:130 | the filter keeps every active definition as often as it is stored, and nothing inactive |
| DashboardRegistry.ActiveOnlyAppend | Xpand/Xpand.ExpressApp.Modules/Dashboard/Controllers/DashboardNavigationController.cs:130 | the filter keeps store order: filtering a concatenation filters each part in turn |
| DashboardRegistry.Reload | Xpand/Xpand.ExpressApp.Modules/Dashboard/Controllers/DashboardNavigationController.cs:127-141 | the reload holds exactly the active definitions, sorted by index with ties in store order. Each is paired with an item whose id is its Oid, caption its name, index its index, shortcut its Oid on the viewer view. The previous registry is not an input |
| DashboardRegistry.ReloadExactlyActive | Xpand/Xpand.ExpressApp.Modules/Dashboard/Controllers/DashboardNavigationController.cs:130 | a definition is in the reload if and only if it is stored and active |
| DashboardRegistry.ReloadEmptyIff | Xpand/Xpand.ExpressApp.Modules/Dashboard/Controllers/DashboardNavigationController.cs:130 | the reload is empty if and only if no stored definition is active |
| Rights.HasRights | Xpand/Xpand.ExpressApp.Modules/Dashboard/Controllers/DashboardNavigationController.cs:90-118 | the check reports a configuration error if and only if the view is missing on the desktop platform, naming the shortcut's view. It redirects if and only if the view is missing otherwise. With no object type it always shows the item |
| Rights.MissingViewOutcome | Xpand/Xpand.ExpressApp.Modules/Dashboard/Controllers/DashboardNavigationController.cs:92-117 | a missing view throws a configuration error on Win; on the web it redirects and returns true |
| Rights.ObjectCheck | Xpand/Xpand.ExpressApp.Modules/Dashboard/Controllers/DashboardNavigationController.cs:105-113 | the guarded block answers "denied" if and only if the object resolves, the object space disposes cleanly, and `CanRead` denies, or `CanRead` grants and `CanNavigate` denies; it answers at all only when the lookup and disposal succeed |
| Rights.HiddenExactlyWhenDenied | Xpand/Xpand.ExpressApp.Modules/Dashboard/Controllers/DashboardNavigationController.cs:101-117 | an item is hidden if and only if a type is known and either (literal key) the object resolves, disposal does not throw, and reading is denied or reading is granted and navigating denied; or (other key) type-level navigation is denied. A throwing query never hides the item |
| Rights.ResolutionFailureFailsOpen | Xpand/Xpand.ExpressApp.Modules/Dashboard/Controllers/DashboardNavigationController.cs:104-113 | when anything in the `try` throws (the lookup, `CanRead`, a reached `CanNavigate`, or disposal), the item is shown |
| Rights.DeniedReadShortCircuits | Xpand/Xpand.ExpressApp.Modules/Dashboard/Controllers/DashboardNavigationController.cs:108-109 | a denied read hides the item whatever `CanNavigate` would answer, even if it would throw, because `&&` never asks it |
| Rights.DynamicKeyIgnoresObjects | Xpand/Xpand.ExpressApp.Modules/Dashboard/Controllers/DashboardNavigationController.cs:104-115 | with an empty or `@`-prefixed key no object is looked up: only type-level navigation rights matter |
| Rights.GrantingSecurityShowsAll | Xpand/Xpand.ExpressApp.Modules/Dashboard/Controllers/DashboardNavigationController.cs:101-117 | a security system that grants everything hides no item |
| GroupSync.FindGroup | Xpand/Xpand.ExpressApp.Modules/Dashboard/Controllers/DashboardNavigationController.cs:147-149 | the group is the first of the action's own items whose caption matches; none when no direct item matches |
| GroupSync.PlaceGroup | Xpand/Xpand.ExpressApp.Modules/Dashboard/Controllers/DashboardNavigationController.cs:61-73 | a found group is reused in place. Otherwise a new empty group is placed, and its path leads to a node with the configured caption. If it is attached nowhere the tree is unchanged |
| GroupSync.MarkActions | Xpand/Xpand.ExpressApp.Modules/Dashboard/Controllers/DashboardNavigationController.cs:79-82 | the loop aborts exactly when there are items and the check cannot decide, reporting the first item's shortcut. Otherwise every item gets its `HasRights` flag set to the check's decision, with one redirect per item when the view is missing |
| GroupSync.ItemsInitialized | Xpand/Xpand.ExpressApp.Modules/Dashboard/Controllers/DashboardNavigationController.cs:54-88 | with grouping off nothing changes, not even the registry. With grouping on, the registry afterwards is the fresh reload, whatever it was before. The modelled pass fails only on a check that reports a configuration error, and a group it leaves carries the configured caption |
| GroupSync.DisabledIsNoOp | Xpand/Xpand.ExpressApp.Modules/Dashboard/Controllers/DashboardNavigationController.cs:57 | grouping off: tree and registry unchanged, no group |
| GroupSync.NothingActiveIsNoOp | Xpand/Xpand.ExpressApp.Modules/Dashboard/Controllers/DashboardNavigationController.cs:57-60 | no active definition: the tree is unchanged, no group is created and the registry is empty |
| GroupSync.PassGroupChildren | Xpand/Xpand.ExpressApp.Modules/Dashboard/Controllers/DashboardNavigationController.cs:74-84 | the group's new children are the ordering of its previous children followed by the flagged generated items |
| GroupSync.GroupChildrenOrdered | Xpand/Xpand.ExpressApp.Modules/Dashboard/Controllers/DashboardNavigationController.cs:74-84 | the group's children are a permutation of (previous children ++ flagged generated items), sorted by index, with equal indexes in that concatenation's order. Previous children are carried unchanged |
| GroupSync.ExistingGroupReused | Xpand/Xpand.ExpressApp.Modules/Dashboard/Controllers/DashboardNavigationController.cs:61-62 | the first root item with the caption is reused: only its children change and every other root item is untouched |
| GroupSync.NewGroupAppendedToRoot | Xpand/Xpand.ExpressApp.Modules/Dashboard/Controllers/DashboardNavigationController.cs:62-72 | no matching item and no parent configured: a new group is appended after the existing root items, which stay as they were |
| GroupSync.ParentPassShape | Xpand/Xpand.ExpressApp.Modules/Dashboard/Controllers/DashboardNavigationController.cs:66-84 | with a parent found, the pass's tree is the old tree with the filled new group appended to the parent's children |
| GroupSync.NewGroupUnderParent | Xpand/Xpand.ExpressApp.Modules/Dashboard/Controllers/DashboardNavigationController.cs:66-69 | a new group goes last under the first node with the parent id. The parent keeps its fields and earlier children, its ancestors keep their own fields, and nodes in disjoint subtrees are unchanged |
| GroupSync.ParentFoundIffExists | Xpand/Xpand.ExpressApp.Modules/Dashboard/Controllers/DashboardNavigationController.cs:66-69 | with no matching group and a parent configured, the new group is attached if and only if some node anywhere in the tree has the parent id |
| GroupSync.ParentMissingAttachesNowhere | Xpand/Xpand.ExpressApp.Modules/Dashboard/Controllers/DashboardNavigationController.cs:66-69 | when no node has the parent id, the pass leaves the tree unchanged (also when it fails), with no fallback to the root |
| GroupSync.MissingViewOnWinAborts | Xpand/Xpand.ExpressApp.Modules/Dashboard/Controllers/DashboardNavigationController.cs:74-94 | a missing view on Win fails the pass with an error naming the viewer view. The existing group is left empty and the other root items are untouched |
| GroupSync.MissingViewOnWinLeavesNewGroup | Xpand/Xpand.ExpressApp.Modules/Dashboard/Controllers/DashboardNavigationController.cs:62-94 | with no group and no parent item, a missing view on Win fails the pass after the new group was appended, so the tree is the old root items followed by the empty new group |
| GroupSync.NestedGroupNotFoundAgain | Xpand/Xpand.ExpressApp.Modules/Dashboard/Controllers/DashboardNavigationController.cs:147-149 | after a pass that attached the group under a parent item, the lookup by caption over the action's own items finds nothing, so the next pass starts from an empty group again |
| GroupSync.RepeatedPassesAccumulate | Xpand/Xpand.ExpressApp.Modules/Dashboard/Controllers/DashboardNavigationController.cs:74-84 | two passes on a tree that holds the group leave previous + 2 × generated children, so the pass is not idempotent |
| GroupSync.GeneratedSorted | Xpand/Xpand.ExpressApp.Modules/Dashboard/Controllers/DashboardNavigationController.cs:79-84 | the flagged generated items already come in index order, since the reload sorts them and flagging keeps the index |
| GroupSync.EmptyTreePass | Xpand/Xpand.ExpressApp.Modules/Dashboard/Controllers/DashboardNavigationController.cs:61-84 | on an empty tree with grouping on and no parent item, the pass leaves exactly one new group at the root, holding the ordering of the flagged items |
| GroupSync.FirstPassOnEmptyTree | Xpand/Xpand.ExpressApp.Modules/Dashboard/Controllers/DashboardNavigationController.cs:61-84 | for any store with an active definition and any deciding check, defaults on an empty tree yield exactly one "Dashboards" group at the root holding the flagged generated items in registry order |
| GroupSync.ScenarioOrdersActiveByIndex | Xpand/Xpand.ExpressApp.Modules/Dashboard/Controllers/DashboardNavigationController.cs:127-141 | store A (index 2), B (index 1), C (inactive), with everything granted: the group holds B's item then A's, and C gets none |
| Lifecycle.Unsubscribe | Xpand/Xpand.ExpressApp.Modules/Dashboard/Controllers/DashboardNavigationController.cs:41-46 | removes one registration from the held controller only and forgets the controller |
| Lifecycle.Subscribe | Xpand/Xpand.ExpressApp.Modules/Dashboard/Controllers/DashboardNavigationController.cs:35-39 | holds the frame's controller (possibly none) and adds exactly one registration to it |
| Lifecycle.OnFrameAssigned | Xpand/Xpand.ExpressApp.Modules/Dashboard/Controllers/DashboardNavigationController.cs:48-52 | unsubscribe-then-subscribe holds the new controller and keeps "registered exactly once on the held controller, or nowhere" |
| Lifecycle.OnDeactivated | Xpand/Xpand.ExpressApp.Modules/Dashboard/Controllers/DashboardNavigationController.cs:30-33 | afterwards no controller is held and, from a consistent state, no registration remains |
| Lifecycle.RunStaysConsistent | Xpand/Xpand.ExpressApp.Modules/Dashboard/Controllers/DashboardNavigationController.cs:30-52 | over any sequence of frame assignments and deactivations, at most one registration exists. A firing runs the handler at most once, and exactly once if it comes from the held controller |
| Lifecycle.FrameAssignedTwice | Xpand/Xpand.ExpressApp.Modules/Dashboard/Controllers/DashboardNavigationController.cs:48-52 | two frame assignments in a row leave one registration |
| Lifecycle.SubscribeTwiceDuplicates | Xpand/Xpand.ExpressApp.Modules/Dashboard/Controllers/DashboardNavigationController.cs:35-39 | subscribing twice without unsubscribing would register the handler twice |

## Left out

- Permission aggregation of the security role (`XpandRole.GetPermissionsCore`). It only concatenates three permission sequences whose producers are not part of this model.
- Connection-string setup of the demo module: configuration only.
- `ExtendModelInterfaces`: model schema registration, no logic.
- `RecreateNavigationItems`: it forwards to the host.
- `UpdateNavigationImages`: an empty extension point.
- Image names of the items and the group: presentation only.
- The web redirect is I/O and a blocking wait on the web API. The model only records that a redirect was issued (`redirected`, and the redirect count of a pass).
- `CreateObjectSpace`, `GetObjectKey` and `GetObjectByKey` are folded into one lookup oracle that either throws or yields an object. `CanRead` and `CanNavigate` on the object are oracles that throw, grant or deny, and disposal of the object space is a flag saying whether it throws. An exception from the type-level `CanNavigate`, which lies outside the `try`, is not modelled.
- Platforms other than Win and Web are not modelled. For them the code would take the web branch.
- Null strings (a null caption or option value) are not modelled. A null or empty parent item is the empty string.
- Rights.HasRights: two further exceptions are not modelled. An object view whose `ModelClass` is null throws at line 102, because `?.` guards only the view; `ObjectView(None)` stands for a null `TypeInfo.Type` only. The type-level `CanNavigate` at line 115 lies outside the `try` and may throw. The model's check reports an error only for a missing view on the desktop platform. The `@` test at line 104 is culture-sensitive; the model compares the first character ordinally. The two differ only for keys that begin with a culture-ignorable code point, which `Oid` text never does.
- GroupSync.ItemsInitialized: a pass also ends with an exception when a rights check throws at line 102 or line 115 as above. The model's pass fails only on the missing-view configuration error.
- Subclasses overriding the virtual `HasRights` or `CreateObjectSpace` are not modelled.
- NavigationTree.FindById: the traversal order of `GetItems` is not visible. The model searches in pre-order. Success if and only if some node has the id holds for any order, but which node is first may differ.
- GroupSync.NewGroupUnderParent: a new group's id is taken to be its caption, and its index null. The two-argument item constructor is not visible.
- DashboardRegistry.Reload: the registry dictionary is assumed to enumerate its keys in insertion order, which .NET's `Dictionary` does when only adds follow a `Clear`. The generated items in the registry carry no `HasRights` flag, while their copies in the tree do. In the code both are the same objects, but nothing in this component reads the registry's flags.

=== FILE: dashboard_registry.dfy ===
/**
 The dashboard action registry: the controller's dictionary from generated
 navigation items to the dashboard definitions they open, rebuilt from the
 stored definitions on every reconciliation pass.
 */
module DashboardRegistry {
  import opened Optional
  import opened NavigationTree
  import opened StableSort

  /** A stored `DashboardDefinition`; `oid` is the text of its `Oid` key. */
  datatype Definition = Definition(oid: string, name: string, index: int, active: bool)

  /** One registry entry: a generated navigation item and its definition. The
      dictionary enumerates its keys in insertion order, which a sequence keeps. */
  datatype Entry = Entry(action: Item, definition: Definition)

  /** The object class every generated shortcut targets. */
  const DefinitionClass := "DashboardDefinition"

  function DefinitionKey(d: Definition): Key {
    Some(d.index)
  }

  /** The navigation item generated for one definition: id is the `Oid` text,
      caption the name, order index the definition's index, and the shortcut
      opens the dashboard viewer detail view on that same object key. */
  function ActionFor(d: Definition, viewerView: string): Item {
    Item(d.oid, d.name, Some(d.index), map[], Some(Shortcut(DefinitionClass, d.oid, viewerView)), [])
  }

  /** `Where(t => t.Active)`. */
  function ActiveOnly(store: seq<Definition>): (r: seq<Definition>)
    ensures forall d :: multiset(r)[d] == if d.active then multiset(store)[d] else 0
    decreases |store|
  {
    if |store| == 0 then []
    else
      var rest := ActiveOnly(store[1..]);
      assert store == [store[0]] + store[1..];
      if store[0].active then [store[0]] + rest else rest
  }

  /** The filter keeps store order: filtering a concatenation filters each
      part in turn. */
  lemma {:induction false} ActiveOnlyAppend(a: seq<Definition>, b: seq<Definition>)
    ensures ActiveOnly(a + b) == ActiveOnly(a) + ActiveOnly(b)
    decreases |a|
  {
    if |a| > 0 {
      assert (a + b)[1..] == a[1..] + b;
      ActiveOnlyAppend(a[1..], b);
    } else {
      assert a + b == b;
    }
  }

  function Definitions(entries: seq<Entry>): (r: seq<Definition>)
    ensures |r| == |entries|
    ensures forall i :: 0 <= i < |r| ==> r[i] == entries[i].definition
  {
    seq(|entries|, i requires 0 <= i < |entries| => entries[i].definition)
  }

  function Actions(entries: seq<Entry>): (r: seq<Item>)
    ensures |r| == |entries|
    ensures forall i :: 0 <= i < |r| ==> r[i] == entries[i].action
  {
    seq(|entries|, i requires 0 <= i < |entries| => entries[i].action)
  }

  /** `ReloadDashboardActions`: clears the registry, then takes the active
      definitions ordered by index (ties in store order) and maps each one to its
      navigation item. Nothing of the previous registry is an input. */
  function Reload(store: seq<Definition>, viewerView: string): (r: seq<Entry>)
    ensures forall i :: 0 <= i < |r| ==> r[i].action == ActionFor(r[i].definition, viewerView)
    ensures SortedBy(Definitions(r), DefinitionKey)
    ensures multiset(Definitions(r)) == multiset(ActiveOnly(store))
    ensures SameRuns(Definitions(r), ActiveOnly(store), DefinitionKey)
  {
    var ordered := SortBy(ActiveOnly(store), DefinitionKey);
    var r := seq(|ordered|, i requires 0 <= i < |ordered| => Entry(ActionFor(ordered[i], viewerView), ordered[i]));
    assert Definitions(r) == ordered;
    r
  }

  /** The registry holds a definition exactly when the store holds it and it is
      active; each generated item carries that definition's key, name, index and
      a shortcut keyed by the same key. */
  lemma {:induction false} ReloadExactlyActive(store: seq<Definition>, viewerView: string, d: Definition)
    ensures d in Definitions(Reload(store, viewerView)) <==> d in store && d.active
  {
    var ds := Definitions(Reload(store, viewerView));
    assert d in ds <==> multiset(ds)[d] > 0;
    assert d in store <==> multiset(store)[d] > 0;
  }

  /** The reload is empty exactly when no stored definition is active. */
  lemma {:induction false} ReloadEmptyIff(store: seq<Definition>, viewerView: string)
    ensures |Reload(store, viewerView)| == 0 <==> forall i :: 0 <= i < |store| ==> !store[i].active
  {
    var ds := Definitions(Reload(store, viewerView));
    if |ds| == 0 {
      forall i | 0 <= i < |store|
        ensures !store[i].active
      {
        ReloadExactlyActive(store, viewerView, store[i]);
      }
    } else {
      ReloadExactlyActive(store, viewerView, ds[0]);
    }
  }
}

=== FILE: group_sync.dfy ===
/**
 The navigation group synchroniser: the handler of the navigation controller's
 `ItemsInitialized` event. It reloads the registry, finds or creates the
 dashboards group, gathers the group's current children and the freshly
 generated items (each flagged by the rights check), and puts them back into
 the group ordered by index.
 */
module GroupSync {
  import opened Optional
  import opened NavigationTree
  import opened StableSort
  import opened DashboardRegistry
  import opened Rights

  /** The navigation options of the dashboard module; `parentItem` is empty when
      the option is null or empty. */
  datatype Options = Options(groupCaption: string, inGroup: bool, parentItem: string)

  /** The declared defaults: caption "Dashboards", grouping on, no parent item. */
  const Defaults := Options("Dashboards", true, "")

  /** Everything the handler reads besides the tree: the platform, the model view
      it passes to every rights check, the security oracles, the stored
      definitions and the id of the dashboard viewer detail view. */
  datatype Env = Env(
    platform: Platform,
    view: Option<ModelView>,
    security: Security,
    store: seq<Definition>,
    viewerView: string)

  /** The name of the flag the rights check sets on each generated item. */
  const RightsFlag := "HasRights"

  /** `FirstOrDefault` by caption over the action's own items (no descent). */
  function FindGroup(root: seq<Item>, caption: string): (r: Option<nat>)
    ensures r.Some? ==> r.value < |root| && root[r.value].caption == caption
    ensures r.Some? ==> forall j :: 0 <= j < r.value ==> root[j].caption != caption
    ensures r.None? ==> forall j :: 0 <= j < |root| ==> root[j].caption != caption
    decreases |root|
  {
    if |root| == 0 then None
    else if root[0].caption == caption then Some(0)
    else
      match FindGroup(root[1..], caption)
      case Some(k) => Some(k + 1)
      case None => None
  }

  /** A group created on demand; its id is its caption and it has no index. */
  function NewGroup(caption: string): Item {
    Item(caption, caption, None, map[], None, [])
  }

  /** The tree once the group is found or created, and where the group is: no
      path when it was created under a parent item that does not exist. */
  datatype Placement = Placement(root: seq<Item>, at: Option<Path>)

  function PlaceGroup(root: seq<Item>, opts: Options): (r: Placement)
    ensures r.at.Some? ==> ValidPath(r.root, r.at.value)
    ensures r.at.Some? ==> At(r.root, r.at.value).caption == opts.groupCaption
    ensures r.at.None? ==> r.root == root
    ensures FindGroup(root, opts.groupCaption).Some? ==> r == Placement(root, Some([FindGroup(root, opts.groupCaption).value]))
    ensures FindGroup(root, opts.groupCaption).None? && r.at.Some? ==> At(r.root, r.at.value) == NewGroup(opts.groupCaption)
  {
    match FindGroup(root, opts.groupCaption)
    case Some(k) => Placement(root, Some([k]))
    case None =>
      var group := NewGroup(opts.groupCaption);
      if opts.parentItem == "" then
        var root' := root + [group];
        assert ValidPath(root', [|root|]);
        Placement(root', Some([|root|]))
      else
        match FindById(root, opts.parentItem)
        case Some(p) =>
          var n := |At(root, p).children|;
          var root' := AddChild(root, p, group);
          SetChildrenAt(root, p, At(root, p).children + [group]);
          ExtendPath(root', p, n);
          Placement(root', Some(p + [n]))
        // the group is created but attached nowhere
        case None => Placement(root, None)
  }

  /** The children the group had before the pass: those of the group found by
      caption, or none for a new group. */
  function GroupBefore(root: seq<Item>, opts: Options): seq<Item> {
    match FindGroup(root, opts.groupCaption)
    case Some(k) => root[k].children
    case None => []
  }

  function Flag(action: Item, visible: bool): Item {
    action.(active := action.active[RightsFlag := visible])
  }

  predicate HasShortcuts(actions: seq<Item>) {
    forall i :: 0 <= i < |actions| ==> actions[i].data.Some?
  }

  /** Every action with its `HasRights` flag set to the rights check's decision. */
  function FlagAll(actions: seq<Item>, env: Env): (r: seq<Item>)
    requires HasShortcuts(actions)
    requires Decides(env.platform, env.view)
  {
    seq(|actions|, i requires 0 <= i < |actions| =>
      Flag(actions[i], Visible(env.platform, env.view, actions[i].data.value, env.security)))
  }

  datatype Marking = Marked(actions: seq<Item>, redirects: nat) | Aborted(error: RightsOutcome)

  /** The loop that flags the generated items one by one; the first check that
      throws ends it. */
  function MarkActions(actions: seq<Item>, env: Env): (r: Marking)
    requires HasShortcuts(actions)
    ensures r.Aborted? <==> |actions| > 0 && !Decides(env.platform, env.view)
    ensures r.Aborted? ==> r.error == MissingView(actions[0].data.value.viewId, actions[0].data.value)
    ensures r.Marked? ==> |r.actions| == |actions|
    ensures r.Marked? && Decides(env.platform, env.view) ==> r.actions == FlagAll(actions, env)
    ensures r.Marked? ==> r.redirects == if env.view.None? then |actions| else 0
    decreases |actions|
  {
    if |actions| == 0 then Marked([], 0)
    else
      match HasRights(env.platform, env.view, actions[0].data.value, env.security)
      case MissingView(v, sc) => Aborted(MissingView(v, sc))
      case Decided(visible, redirected) =>
        match MarkActions(actions[1..], env)
        case Aborted(e) => Aborted(e)
        case Marked(rest, n) =>
          var r := [Flag(actions[0], visible)] + rest;
          assert r == FlagAll(actions, env);
          Marked(r, n + if redirected then 1 else 0)
  }

  /** The outcome of one pass: the tree, the registry, the group as it was left
      (also when it is attached nowhere) and the number of redirects issued; or
      the configuration error, with the tree as the exception leaves it. */
  datatype PassOutcome =
    | Completed(root: seq<Item>, registry: seq<Entry>, group: Option<Item>, redirects: nat)
    | Failed(root: seq<Item>, registry: seq<Entry>, error: RightsOutcome)

  /** `_NavigationController_ItemsInitialized`. */
  function ItemsInitialized(root: seq<Item>, registry: seq<Entry>, opts: Options, env: Env): (r: PassOutcome)
    ensures !opts.inGroup ==> r == Completed(root, registry, None, 0)
    ensures opts.inGroup ==> r.registry == Reload(env.store, env.viewerView)
    ensures r.Failed? ==> !Decides(env.platform, env.view)
    ensures r.Completed? && r.group.Some? ==> r.group.value.caption == opts.groupCaption
  {
    if !opts.inGroup then Completed(root, registry, None, 0)
    else
      var entries := Reload(env.store, env.viewerView);
      if |entries| == 0 then Completed(root, entries, None, 0)
      else
        var placed := PlaceGroup(root, opts);
        var group := if placed.at.Some? then At(placed.root, placed.at.value) else NewGroup(opts.groupCaption);
        var actions := Actions(entries);
        assert HasShortcuts(actions);
        match MarkActions(actions, env)
        case Aborted(e) =>
          // the group has already been drained when the first check throws
          var drained := if placed.at.Some? then SetChildren(placed.root, placed.at.value, []) else placed.root;
          Failed(drained, entries, e)
        case Marked(flagged, n) =>
          var children := SortBy(group.children + flagged, IndexOf);
          var root' := if placed.at.Some? then SetChildren(placed.root, placed.at.value, children) else placed.root;
          Completed(root', entries, Some(group.(children := children)), n)
  }

  /** The items the registry generates for the stored definitions. */
  function Generated(env: Env): (r: seq<Item>)
    ensures HasShortcuts(r)
  {
    Actions(Reload(env.store, env.viewerView))
  }

  predicate SomeActive(store: seq<Definition>) {
    exists i :: 0 <= i < |store| && store[i].active
  }

  lemma {:induction false} GeneratedNonEmpty(env: Env)
    ensures |Generated(env)| > 0 <==> SomeActive(env.store)
  {
    ReloadEmptyIff(env.store, env.viewerView);
  }

  /** With grouping switched off the handler does nothing, not even a reload. */
  lemma {:induction false} DisabledIsNoOp(root: seq<Item>, registry: seq<Entry>, opts: Options, env: Env)
    requires !opts.inGroup
    ensures ItemsInitialized(root, registry, opts, env) == Completed(root, registry, None, 0)
  {
  }

  /** With no active definition the registry is emptied and the tree is left
      alone: no group is created. */
  lemma {:induction false} NothingActiveIsNoOp(root: seq<Item>, registry: seq<Entry>, opts: Options, env: Env)
    requires opts.inGroup && !SomeActive(env.store)
    ensures ItemsInitialized(root, registry, opts, env) == Completed(root, [], None, 0)
  {
    GeneratedNonEmpty(env);
  }

  /** The children a completed pass leaves in the group. */
  lemma {:induction false} PassGroupChildren(root: seq<Item>, registry: seq<Entry>, opts: Options, env: Env)
    requires Decides(env.platform, env.view)
    ensures var r := ItemsInitialized(root, registry, opts, env);
            r.Completed? && r.group.Some? ==>
              r.group.value.children == SortBy(GroupBefore(root, opts) + FlagAll(Generated(env), env), IndexOf)
  {
    if opts.inGroup && |Reload(env.store, env.viewerView)| > 0 {
      var entries := Reload(env.store, env.viewerView);
      var placed := PlaceGroup(root, opts);
      var group := if placed.at.Some? then At(placed.root, placed.at.value) else NewGroup(opts.groupCaption);
      assert group.children == GroupBefore(root, opts);
      assert HasShortcuts(Actions(entries));
      var m := MarkActions(Actions(entries), env);
      assert m.Marked? && m.actions == FlagAll(Generated(env), env);
    }
  }

  /** After a completed pass the group's children are the children it had
      before followed by the generated items, each flagged with its rights
      decision, sorted by index: sorted, the same elements, and equal indexes in
      that concatenation's order. */
  lemma {:induction false} GroupChildrenOrdered(root: seq<Item>, registry: seq<Entry>, opts: Options, env: Env)
    requires Decides(env.platform, env.view)
    ensures var r := ItemsInitialized(root, registry, opts, env);
            var src := GroupBefore(root, opts) + FlagAll(Generated(env), env);
            r.Completed? && r.group.Some? ==>
              && SortedBy(r.group.value.children, IndexOf)
              && multiset(r.group.value.children) == multiset(src)
              && SameRuns(r.group.value.children, src, IndexOf)
  {
    PassGroupChildren(root, registry, opts, env);
  }

  /** An existing item of the action with the group caption is reused (the
      first one): only its children change and every other item stays. */
  lemma {:induction false} ExistingGroupReused(root: seq<Item>, registry: seq<Entry>, opts: Options, env: Env, k: nat)
    requires opts.inGroup && Decides(env.platform, env.view) && SomeActive(env.store)
    requires k < |root| && root[k].caption == opts.groupCaption
    requires forall j :: 0 <= j < k ==> root[j].caption != opts.groupCaption
    ensures var r := ItemsInitialized(root, registry, opts, env);
            && r.Completed? && r.group.Some?
            && |r.root| == |root|
            && (forall j :: 0 <= j < |root| && j != k ==> r.root[j] == root[j])
            && r.root[k] == r.group.value
            && Label(r.group.value) == Label(root[k])
  {
    GeneratedNonEmpty(env);
    assert FindGroup(root, opts.groupCaption) == Some(k);
  }

  /** With no group and no parent item configured, a new group is appended to
      the action's items and nothing else changes. */
  lemma {:induction false} NewGroupAppendedToRoot(root: seq<Item>, registry: seq<Entry>, opts: Options, env: Env)
    requires opts.inGroup && Decides(env.platform, env.view) && SomeActive(env.store)
    requires forall j :: 0 <= j < |root| ==> root[j].caption != opts.groupCaption
    requires opts.parentItem == ""
    ensures var r := ItemsInitialized(root, registry, opts, env);
            && r.Completed? && r.group.Some?
            && |r.root| == |root| + 1
            && r.root[..|root|] == root
            && r.root[|root|] == r.group.value
            && Label(r.group.value) == NewGroup(opts.groupCaption)
  {
    GeneratedNonEmpty(env);
  }

  /** With no group and a parent item configured that exists, the pass adds
      the new group, filled, as the last child of the parent. */
  lemma {:induction false} ParentPassShape(root: seq<Item>, registry: seq<Entry>, opts: Options, env: Env, p: Path)
    requires opts.inGroup && Decides(env.platform, env.view) && SomeActive(env.store)
    requires forall j :: 0 <= j < |root| ==> root[j].caption != opts.groupCaption
    requires opts.parentItem != "" && FindById(root, opts.parentItem) == Some(p)
    ensures var r := ItemsInitialized(root, registry, opts, env);
            && r.Completed? && r.group.Some?
            && Label(r.group.value) == NewGroup(opts.groupCaption)
            && r.root == SetChildren(root, p, At(root, p).children + [r.group.value])
  {
    GeneratedNonEmpty(env);
    var r := ItemsInitialized(root, registry, opts, env);
    var n := |At(root, p).children|;
    var g := NewGroup(opts.groupCaption);
    assert FindGroup(root, opts.groupCaption).None?;
    assert PlaceGroup(root, opts) == Placement(AddChild(root, p, g), Some(p + [n]));
    var cs := r.group.value.children;
    AddThenFill(root, p, g, cs);
  }

  /** With no group and a parent item configured that exists, the new group is
      appended to the children of the first such item (in pre-order); the
      parent keeps its own fields and earlier children, its ancestors keep
      their own fields, and every node in a disjoint subtree is unchanged. */
  lemma {:induction false} NewGroupUnderParent(root: seq<Item>, registry: seq<Entry>, opts: Options, env: Env, p: Path)
    requires opts.inGroup && Decides(env.platform, env.view) && SomeActive(env.store)
    requires forall j :: 0 <= j < |root| ==> root[j].caption != opts.groupCaption
    requires opts.parentItem != "" && FindById(root, opts.parentItem) == Some(p)
    ensures var r := ItemsInitialized(root, registry, opts, env);
            var n := |At(root, p).children|;
            && r.Completed? && r.group.Some?
            && ValidPath(r.root, p + [n])
            && At(r.root, p + [n]) == r.group.value
            && Label(r.group.value) == NewGroup(opts.groupCaption)
            && ValidPath(r.root, p)
            && Label(At(r.root, p)) == Label(At(root, p))
            && At(r.root, p).children == At(root, p).children + [r.group.value]
            && (forall q :: ValidPath(root, q) && Disjoint(p, q) ==>
                  ValidPath(r.root, q) && At(r.root, q) == At(root, q))
            && (forall q :: 0 < |q| < |p| && q == p[..|q|] ==>
                  ValidPath(root, q) && ValidPath(r.root, q) && Label(At(r.root, q)) == Label(At(root, q)))
  {
    ParentPassShape(root, registry, opts, env, p);
    var r := ItemsInitialized(root, registry, opts, env);
    var n := |At(root, p).children|;
    var final := At(root, p).children + [r.group.value];
    var t := SetChildren(root, p, final);
    SetChildrenAt(root, p, final);
    ExtendPath(t, p, n);
    SetChildrenFrame(root, p, final);
    assert r.root == t;
  }

  /** With no group and a parent item configured, the new group is attached
      exactly when some node of the tree has that id. */
  lemma {:induction false} ParentFoundIffExists(root: seq<Item>, opts: Options)
    requires forall j :: 0 <= j < |root| ==> root[j].caption != opts.groupCaption
    requires opts.parentItem != ""
    ensures PlaceGroup(root, opts).at.Some? <==>
            exists q :: ValidPath(root, q) && At(root, q).id == opts.parentItem
  {
    assert FindGroup(root, opts.groupCaption).None?;
    if q :| ValidPath(root, q) && At(root, q).id == opts.parentItem {
      FindByIdComplete(root, opts.parentItem, q);
    }
  }

  /** When no node has the configured parent id, the new group is created but
      attached nowhere: the tree is left as it was, whatever the outcome of the
      pass, with no fallback to the root. */
  lemma {:induction false} ParentMissingAttachesNowhere(root: seq<Item>, registry: seq<Entry>, opts: Options, env: Env)
    requires forall j :: 0 <= j < |root| ==> root[j].caption != opts.groupCaption
    requires opts.parentItem != ""
    requires forall q :: ValidPath(root, q) ==> At(root, q).id != opts.parentItem
    ensures ItemsInitialized(root, registry, opts, env).root == root
  {
    assert FindGroup(root, opts.groupCaption).None?;
  }

  /** A missing view on the desktop platform aborts the pass at the first
      generated item with a configuration error naming the viewer view; by then
      an existing group has already been emptied, so its previous children are
      gone from the tree. */
  lemma {:induction false} MissingViewOnWinAborts(root: seq<Item>, registry: seq<Entry>, opts: Options, env: Env, k: nat)
    requires opts.inGroup && SomeActive(env.store)
    requires env.platform == Win && env.view.None?
    requires k < |root| && root[k].caption == opts.groupCaption
    requires forall j :: 0 <= j < k ==> root[j].caption != opts.groupCaption
    ensures var r := ItemsInitialized(root, registry, opts, env);
            && r.Failed?
            && r.error.MissingView? && r.error.viewId == env.viewerView
            && |r.root| == |root|
            && (forall j :: 0 <= j < |root| && j != k ==> r.root[j] == root[j])
            && r.root[k] == root[k].(children := [])
  {
    GeneratedNonEmpty(env);
    assert FindGroup(root, opts.groupCaption) == Some(k);
  }

  /** With no group and no parent item, a missing view on the desktop platform
      aborts the pass after the new group has been appended to the root: the
      empty group stays in the tree. */
  lemma {:induction false} MissingViewOnWinLeavesNewGroup(root: seq<Item>, registry: seq<Entry>, opts: Options, env: Env)
    requires opts.inGroup && SomeActive(env.store)
    requires env.platform == Win && env.view.None?
    requires forall j :: 0 <= j < |root| ==> root[j].caption != opts.groupCaption
    requires opts.parentItem == ""
    ensures var r := ItemsInitialized(root, registry, opts, env);
            && r.Failed?
            && r.error.MissingView? && r.error.viewId == env.viewerView
            && r.root == root + [NewGroup(opts.groupCaption)]
  {
    GeneratedNonEmpty(env);
    assert FindGroup(root, opts.groupCaption).None?;
    var t := root + [NewGroup(opts.groupCaption)];
    assert ValidPath(t, [|root|]);
    assert SetChildren(t, [|root|], []) == t;
  }

  /** A group placed under a parent item is not among the action's own items,
      so the next pass does not find it by caption and creates another one. */
  lemma {:induction false} NestedGroupNotFoundAgain(root: seq<Item>, registry: seq<Entry>, opts: Options, env: Env, p: Path)
    requires opts.inGroup && Decides(env.platform, env.view) && SomeActive(env.store)
    requires forall j :: 0 <= j < |root| ==> root[j].caption != opts.groupCaption
    requires opts.parentItem != "" && FindById(root, opts.parentItem) == Some(p)
    ensures var r := ItemsInitialized(root, registry, opts, env);
            && r.Completed?
            && FindGroup(r.root, opts.groupCaption).None?
            && GroupBefore(r.root, opts) == []
  {
    ParentPassShape(root, registry, opts, env, p);
    var r := ItemsInitialized(root, registry, opts, env);
    SetChildrenKeepsCaptions(root, p, At(root, p).children + [r.group.value]);
  }

  /** The pass does not de-duplicate: run twice on a tree that already holds
      the group, it keeps every previous child and adds the generated items
      again each time. */
  lemma {:induction false} RepeatedPassesAccumulate(root: seq<Item>, registry: seq<Entry>, opts: Options, env: Env, k: nat)
    requires opts.inGroup && Decides(env.platform, env.view)
    requires k < |root| && root[k].caption == opts.groupCaption
    requires forall j :: 0 <= j < k ==> root[j].caption != opts.groupCaption
    ensures var r1 := ItemsInitialized(root, registry, opts, env);
            var r2 := ItemsInitialized(r1.root, r1.registry, opts, env);
            && r1.Completed? && r2.Completed?
            && |r2.root| == |root|
            && |r2.root[k].children| == |root[k].children| + 2 * |Generated(env)|
  {
    GeneratedNonEmpty(env);
    var r1 := ItemsInitialized(root, registry, opts, env);
    if SomeActive(env.store) {
      ExistingGroupReused(root, registry, opts, env, k);
      GroupChildrenOrdered(root, registry, opts, env);
      assert FindGroup(root, opts.groupCaption) == Some(k);
      var src1 := root[k].children + FlagAll(Generated(env), env);
      assert |r1.root[k].children| == |src1| by {
        assert |multiset(r1.root[k].children)| == |multiset(src1)|;
      }
      assert r1.root[k].caption == opts.groupCaption;
      ExistingGroupReused(r1.root, r1.registry, opts, env, k);
      GroupChildrenOrdered(r1.root, r1.registry, opts, env);
      var r2 := ItemsInitialized(r1.root, r1.registry, opts, env);
      assert FindGroup(r1.root, opts.groupCaption) == Some(k);
      var src2 := r1.root[k].children + FlagAll(Generated(env), env);
      assert |multiset(r2.root[k].children)| == |multiset(src2)|;
    } else {
      NothingActiveIsNoOp(root, registry, opts, env);
      NothingActiveIsNoOp(r1.root, r1.registry, opts, env);
    }
  }

  /** The store [A, B, C] with A and B active, B ordered before A, and C
      inactive (A at index 2, B at 1, C at 0, say). */
  predicate ScenarioStore(a: Definition, b: Definition, c: Definition) {
    a.active && b.active && !c.active && b.index < a.index
  }

  lemma {:induction false} ScenarioReload(a: Definition, b: Definition, c: Definition, viewerView: string)
    requires ScenarioStore(a, b, c)
    ensures Reload([a, b, c], viewerView)
         == [Entry(ActionFor(b, viewerView), b), Entry(ActionFor(a, viewerView), a)]
  {
    assert [a, b, c][1..] == [b, c];
    assert [b, c][1..] == [c];
    assert [c][1..] == [];
    assert ActiveOnly([a, b, c]) == [a, b];
    assert [a, b][..1] == [a];
    assert SortBy([a], DefinitionKey) == [a];
  }

  /** The flagged generated items are already in index order: the reload
      sorts the definitions, each item carries its definition's index, and
      flagging leaves the index alone. */
  lemma {:induction false} GeneratedSorted(env: Env)
    requires Decides(env.platform, env.view)
    ensures SortedBy(FlagAll(Generated(env), env), IndexOf)
  {
    var entries := Reload(env.store, env.viewerView);
    var f := FlagAll(Generated(env), env);
    forall i | 0 <= i < |f|
      ensures IndexOf(f[i]) == DefinitionKey(Definitions(entries)[i])
    {
      assert f[i].index == entries[i].action.index;
    }
  }

  /** The shape of a first pass on an empty tree with grouping on and no parent
      item: one new group at the root, holding the ordering of the flagged
      items. */
  lemma {:induction false} EmptyTreePass(opts: Options, env: Env)
    requires opts.inGroup && opts.parentItem == ""
    requires Decides(env.platform, env.view) && SomeActive(env.store)
    ensures
      var r := ItemsInitialized([], [], opts, env);
      && r.Completed? && r.group.Some?
      && r.root == [NewGroup(opts.groupCaption).(children := r.group.value.children)]
      && r.group.value.children == SortBy(FlagAll(Generated(env), env), IndexOf)
  {
    NewGroupAppendedToRoot([], [], opts, env);
    PassGroupChildren([], [], opts, env);
    var r := ItemsInitialized([], [], opts, env);
    var g := r.group.value;
    assert GroupBefore([], opts) == [];
    assert [] + FlagAll(Generated(env), env) == FlagAll(Generated(env), env);
    assert g == Label(g).(children := g.children);
  }

  /** A first pass with default options on an empty tree creates one
      "Dashboards" group at the root holding the flagged generated items, in
      the registry's order, whatever the store holds as long as something is
      active. */
  lemma {:induction false} FirstPassOnEmptyTree(env: Env)
    requires Decides(env.platform, env.view) && SomeActive(env.store)
    ensures
      var r := ItemsInitialized([], [], Defaults, env);
      r.Completed? && r.root == [NewGroup("Dashboards").(children := FlagAll(Generated(env), env))]
  {
    EmptyTreePass(Defaults, env);
    GeneratedSorted(env);
    SortOfSorted(FlagAll(Generated(env), env), IndexOf);
  }

  /** With default options, an empty tree and a security system that grants
      everything, the pass appends one "Dashboards" group holding B's item,
      then A's; C gets no item. */
  lemma {:induction false} ScenarioOrdersActiveByIndex(a: Definition, b: Definition, c: Definition, env: Env)
    requires ScenarioStore(a, b, c) && env.store == [a, b, c]
    requires Decides(env.platform, env.view) && GrantsAll(env.security)
    ensures
      var r := ItemsInitialized([], [], Defaults, env);
      && r.Completed?
      && r.root == [NewGroup("Dashboards").(children := [
           Flag(ActionFor(b, env.viewerView), true),
           Flag(ActionFor(a, env.viewerView), true)])]
  {
    ScenarioReload(a, b, c, env.viewerView);
    var actions := Generated(env);
    assert actions == [ActionFor(b, env.viewerView), ActionFor(a, env.viewerView)];
    GrantingSecurityShowsAll(env.platform, env.view, actions[0].data.value, env.security);
    GrantingSecurityShowsAll(env.platform, env.view, actions[1].data.value, env.security);
    assert FlagAll(actions, env) == [Flag(actions[0], true), Flag(actions[1], true)];
    assert env.store[0].active;
    FirstPassOnEmptyTree(env);
  }
}

=== FILE: lifecycle.dfy ===
/**
 The subscription lifecycle of the dashboard navigation controller: on frame
 assignment it drops any previous subscription and then subscribes its handler
 to the `ItemsInitialized` event of the frame's navigation controller; on
 deactivation it drops the subscription.
 */
module Lifecycle {
  import opened Optional

  /** A navigation controller (`ShowNavigationItemController`), by identity. */
  type ControllerRef = nat

  /** The navigation controller the controller holds, and the navigation
      controllers whose event holds the handler: one entry per `+=` not yet
      undone by a `-=`, so a controller appearing twice runs the handler twice. */
  datatype State = State(held: Option<ControllerRef>, handlers: multiset<ControllerRef>)

  const Initial := State(None, multiset{})

  /** The handler is registered exactly once, on the held controller, or nowhere. */
  predicate Consistent(s: State) {
    match s.held
    case None => s.handlers == multiset{}
    case Some(c) => s.handlers == multiset{c}
  }

  /** `UnsubscribeFromEvents`: with a held controller, removes one registration
      from it and forgets it; otherwise does nothing. */
  function Unsubscribe(s: State): (r: State)
    ensures r.held.None?
    ensures s.held.Some? ==> r.handlers[s.held.value] == if s.handlers[s.held.value] > 0 then s.handlers[s.held.value] - 1 else 0
    ensures forall c: ControllerRef :: (s.held != Some(c)) ==> r.handlers[c] == s.handlers[c]
  {
    match s.held
    case Some(c) => State(None, s.handlers - multiset{c})
    case None => s
  }

  /** `SubscribeToEvents`: holds the frame's navigation controller (possibly
      none) and, when there is one, adds a registration to it. */
  function Subscribe(s: State, found: Option<ControllerRef>): (r: State)
    ensures r.held == found
    ensures found.Some? ==> r.handlers[found.value] == s.handlers[found.value] + 1
    ensures forall c: ControllerRef :: found != Some(c) ==> r.handlers[c] == s.handlers[c]
  {
    State(found, if found.Some? then s.handlers + multiset{found.value} else s.handlers)
  }

  /** `OnFrameAssigned`: unsubscribe first, then subscribe. */
  function OnFrameAssigned(s: State, found: Option<ControllerRef>): (r: State)
    ensures r.held == found
    ensures Consistent(s) ==> Consistent(r)
  {
    Subscribe(Unsubscribe(s), found)
  }

  /** `OnDeactivated`: unsubscribe; afterwards no registration remains and no
      controller is held. */
  function OnDeactivated(s: State): (r: State)
    ensures r.held.None?
    ensures Consistent(s) ==> r.handlers == multiset{}
  {
    Unsubscribe(s)
  }

  datatype Event = FrameAssigned(found: Option<ControllerRef>) | Deactivated

  function Step(s: State, e: Event): State {
    match e
    case FrameAssigned(found) => OnFrameAssigned(s, found)
    case Deactivated => OnDeactivated(s)
  }

  function Run(s: State, events: seq<Event>): State
    decreases |events|
  {
    if |events| == 0 then s else Run(Step(s, events[0]), events[1..])
  }

  /** How many times one firing of `c`'s event runs the handler. */
  function Deliveries(s: State, c: ControllerRef): nat {
    s.handlers[c]
  }

  /** Any sequence of frame assignments and deactivations keeps the handler
      registered at most once: every firing runs it at most once, and only the
      held controller's firing runs it at all. */
  lemma {:induction false} RunStaysConsistent(s: State, events: seq<Event>)
    requires Consistent(s)
    ensures Consistent(Run(s, events))
    ensures |Run(s, events).handlers| <= 1
    ensures forall c: ControllerRef :: Deliveries(Run(s, events), c) <= 1
    ensures forall c: ControllerRef :: Deliveries(Run(s, events), c) == 1 <==> Run(s, events).held == Some(c)
    decreases |events|
  {
    if |events| > 0 {
      RunStaysConsistent(Step(s, events[0]), events[1..]);
    }
  }

  /** Assigning a frame twice without a deactivation leaves one registration. */
  lemma {:induction false} FrameAssignedTwice(c: ControllerRef)
    ensures OnFrameAssigned(OnFrameAssigned(Initial, Some(c)), Some(c)).handlers == multiset{c}
  {
  }

  /** Why the order matters: subscribing twice without unsubscribing registers
      the handler twice, so one firing would run the pass twice. */
  lemma {:induction false} SubscribeTwiceDuplicates(c: ControllerRef)
    ensures Deliveries(Subscribe(Subscribe(Initial, Some(c)), Some(c)), c) == 2
  {
  }
}

=== FILE: navigation_tree.dfy ===
/**
 The navigation tree of the main window: the items of the navigation action
 (a `SingleChoiceAction`) and, recursively, their child items. The tree is a
 value here; a node is addressed by a path of child positions, starting at the
 action's own item list.
 */
module NavigationTree {
  import opened Optional

  /** A view shortcut, the `Data` of a navigation item: the class of the target
      object, the key of that object and the id of the view to open. */
  datatype Shortcut = Shortcut(objectClass: string, objectKey: string, viewId: string)

  /** A `ChoiceActionItem`. `index` is the item model's nullable `Index`,
      `active` its `Active` list of named flags, `data` its shortcut (if any). */
  datatype Item = Item(
    id: string,
    caption: string,
    index: Option<int>,
    active: map<string, bool>,
    data: Option<Shortcut>,
    children: seq<Item>)

  /** Child positions from the action's item list down to a node. */
  type Path = seq<nat>

  /** The order key of an item: its model's `Index`. */
  function IndexOf(it: Item): Option<int> {
    it.index
  }

  /** An item with its children dropped: what stays when only the children change. */
  function Label(it: Item): Item {
    it.(children := [])
  }

  predicate ValidPath(items: seq<Item>, p: Path)
    decreases p
  {
    && |p| > 0
    && p[0] < |items|
    && (|p| == 1 || ValidPath(items[p[0]].children, p[1..]))
  }

  function At(items: seq<Item>, p: Path): Item
    requires ValidPath(items, p)
    decreases p
  {
    if |p| == 1 then items[p[0]] else At(items[p[0]].children, p[1..])
  }

  /** Neither path is a prefix of the other: the nodes lie in disjoint subtrees. */
  predicate Disjoint(p: Path, q: Path) {
    exists i :: 0 <= i < |p| && i < |q| && p[i] != q[i]
  }

  /** Replaces the children of the node at `p` wholesale. */
  function SetChildren(items: seq<Item>, p: Path, cs: seq<Item>): (r: seq<Item>)
    requires ValidPath(items, p)
    ensures |r| == |items|
    decreases p
  {
    var n := items[p[0]];
    if |p| == 1 then items[p[0] := n.(children := cs)]
    else items[p[0] := n.(children := SetChildren(n.children, p[1..], cs))]
  }

  /** Replacing children below the top level keeps every top-level item's
      caption. */
  lemma {:induction false} SetChildrenKeepsCaptions(items: seq<Item>, p: Path, cs: seq<Item>)
    requires ValidPath(items, p)
    ensures forall j :: 0 <= j < |items| ==> SetChildren(items, p, cs)[j].caption == items[j].caption
  {
  }

  /** `Items.Add`: appends `child` to the children of the node at `p`. */
  function AddChild(items: seq<Item>, p: Path, child: Item): (r: seq<Item>)
    requires ValidPath(items, p)
    ensures |r| == |items|
  {
    SetChildren(items, p, At(items, p).children + [child])
  }

  /** The first node, in pre-order, whose id is `id`. */
  function FindById(items: seq<Item>, id: string): (r: Option<Path>)
    ensures r.Some? ==> ValidPath(items, r.value) && At(items, r.value).id == id
  {
    if |items| == 0 then None
    else if items[0].id == id then Some([0])
    else
      match FindById(items[0].children, id)
      case Some(q) =>
        assert ([0] + q)[1..] == q;
        Some([0] + q)
      case None =>
        match FindById(items[1..], id)
        case Some(q) =>
          var p := [q[0] + 1] + q[1..];
          assert p[1..] == q[1..];
          assert ValidPath(items, p) && At(items, p) == At(items[1..], q) by {
            assert |q| == 1 || (ValidPath(items[1..][q[0]].children, q[1..]));
          }
          Some(p)
        case None => None
  }

  lemma {:induction false} ExtendPath(items: seq<Item>, p: Path, j: nat)
    requires ValidPath(items, p)
    requires j < |At(items, p).children|
    ensures ValidPath(items, p + [j])
    ensures At(items, p + [j]) == At(items, p).children[j]
    decreases p
  {
    assert (p + [j])[0] == p[0];
    if |p| == 1 {
      assert (p + [j])[1..] == [j];
    } else {
      assert (p + [j])[1..] == p[1..] + [j];
      ExtendPath(items[p[0]].children, p[1..], j);
    }
  }

  /** The node at `p` gets the new children and keeps everything else. */
  lemma {:induction false} SetChildrenAt(items: seq<Item>, p: Path, cs: seq<Item>)
    requires ValidPath(items, p)
    ensures ValidPath(SetChildren(items, p, cs), p)
    ensures At(SetChildren(items, p, cs), p) == At(items, p).(children := cs)
    decreases p
  {
    if |p| > 1 {
      SetChildrenAt(items[p[0]].children, p[1..], cs);
    }
  }

  /** Nodes outside the subtree at `p`, other than its ancestors, are untouched. */
  lemma {:induction false} SetChildrenElsewhere(items: seq<Item>, p: Path, cs: seq<Item>, q: Path)
    requires ValidPath(items, p) && ValidPath(items, q) && Disjoint(p, q)
    ensures ValidPath(SetChildren(items, p, cs), q)
    ensures At(SetChildren(items, p, cs), q) == At(items, q)
    decreases p
  {
    if p[0] != q[0] {
    } else {
      var i :| 0 <= i < |p| && i < |q| && p[i] != q[i];
      assert i > 0;
      assert p[1..][i - 1] != q[1..][i - 1];
      SetChildrenElsewhere(items[p[0]].children, p[1..], cs, q[1..]);
    }
  }

  /** The ancestors of the node at `p` change in their children only. */
  lemma {:induction false} SetChildrenAncestors(items: seq<Item>, p: Path, cs: seq<Item>, q: Path)
    requires ValidPath(items, p)
    requires 0 < |q| < |p| && q == p[..|q|] && ValidPath(items, q)
    ensures ValidPath(SetChildren(items, p, cs), q)
    ensures Label(At(SetChildren(items, p, cs), q)) == Label(At(items, q))
    decreases p
  {
    assert q[0] == p[0];
    if |q| > 1 {
      assert q[1..] == p[1..][..|q| - 1];
      SetChildrenAncestors(items[p[0]].children, p[1..], cs, q[1..]);
    }
  }

  /** Setting children twice at the same node keeps only the second. */
  lemma {:induction false} SetChildrenTwice(items: seq<Item>, p: Path, a: seq<Item>, b: seq<Item>)
    requires ValidPath(items, p)
    ensures ValidPath(SetChildren(items, p, a), p)
    ensures SetChildren(SetChildren(items, p, a), p, b) == SetChildren(items, p, b)
    decreases p
  {
    SetChildrenAt(items, p, a);
    if |p| > 1 {
      SetChildrenTwice(items[p[0]].children, p[1..], a, b);
    }
  }

  /** Setting the children of the `j`-th child of `p` is setting the children of
      `p` to the same list with only its `j`-th entry changed. */
  lemma {:induction false} SetChildrenOfChild(items: seq<Item>, p: Path, j: nat, cs: seq<Item>)
    requires ValidPath(items, p) && j < |At(items, p).children|
    ensures ValidPath(items, p + [j])
    ensures SetChildren(items, p + [j], cs)
         == SetChildren(items, p, At(items, p).children[j := At(items, p).children[j].(children := cs)])
    decreases p
  {
    ExtendPath(items, p, j);
    assert (p + [j])[0] == p[0];
    if |p| == 1 {
      assert (p + [j])[1..] == [j];
    } else {
      assert (p + [j])[1..] == p[1..] + [j];
      SetChildrenOfChild(items[p[0]].children, p[1..], j, cs);
    }
  }

  /** Appending a child and then setting that new child's children is
      appending the child with those children in one step. */
  lemma {:induction false} AddThenFill(items: seq<Item>, p: Path, child: Item, cs: seq<Item>)
    requires ValidPath(items, p)
    ensures ValidPath(AddChild(items, p, child), p + [|At(items, p).children|])
    ensures SetChildren(AddChild(items, p, child), p + [|At(items, p).children|], cs)
         == SetChildren(items, p, At(items, p).children + [child.(children := cs)])
  {
    var n := |At(items, p).children|;
    var added := AddChild(items, p, child);
    SetChildrenAt(items, p, At(items, p).children + [child]);
    SetChildrenOfChild(added, p, n, cs);
    assert (At(items, p).children + [child])[n := child.(children := cs)]
        == At(items, p).children + [child.(children := cs)];
    SetChildrenTwice(items, p, At(items, p).children + [child], At(items, p).children + [child.(children := cs)]);
  }

  /** A non-empty prefix of a valid path is valid. */
  lemma {:induction false} PrefixValid(items: seq<Item>, p: Path, k: nat)
    requires ValidPath(items, p) && 0 < k <= |p|
    ensures ValidPath(items, p[..k])
    decreases p
  {
    if k > 1 {
      assert p[..k][1..] == p[1..][..k - 1];
      PrefixValid(items[p[0]].children, p[1..], k - 1);
    }
  }

  /** Replacing the children of the node at `p` changes no other node: every
      node in a disjoint subtree is the same, and every strict ancestor keeps
      its own fields. */
  lemma {:induction false} SetChildrenFrame(items: seq<Item>, p: Path, cs: seq<Item>)
    requires ValidPath(items, p)
    ensures forall q :: ValidPath(items, q) && Disjoint(p, q) ==>
              ValidPath(SetChildren(items, p, cs), q) && At(SetChildren(items, p, cs), q) == At(items, q)
    ensures forall q :: 0 < |q| < |p| && q == p[..|q|] ==>
              ValidPath(items, q) && ValidPath(SetChildren(items, p, cs), q) && Label(At(SetChildren(items, p, cs), q)) == Label(At(items, q))
  {
    forall q | ValidPath(items, q) && Disjoint(p, q)
      ensures ValidPath(SetChildren(items, p, cs), q) && At(SetChildren(items, p, cs), q) == At(items, q)
    {
      SetChildrenElsewhere(items, p, cs, q);
    }
    forall q | 0 < |q| < |p| && q == p[..|q|]
      ensures ValidPath(items, q) && ValidPath(SetChildren(items, p, cs), q) && Label(At(SetChildren(items, p, cs), q)) == Label(At(items, q))
    {
      PrefixValid(items, p, |q|);
      SetChildrenAncestors(items, p, cs, q);
    }
  }

  /** Every node with the wanted id makes the lookup succeed: a failed lookup
      means no node anywhere in the tree has that id. */
  lemma {:induction false} FindByIdComplete(items: seq<Item>, id: string, p: Path)
    requires ValidPath(items, p) && At(items, p).id == id
    ensures FindById(items, id).Some?
    decreases items
  {
    if items[0].id == id {
    } else if FindById(items[0].children, id).Some? {
    } else if p[0] == 0 {
      FindByIdComplete(items[0].children, id, p[1..]);
    } else {
      var q := [p[0] - 1] + p[1..];
      assert q[1..] == p[1..];
      assert ValidPath(items[1..], q) && At(items[1..], q) == At(items, p);
      FindByIdComplete(items[1..], id, q);
    }
  }
}

=== FILE: optional.dfy ===
/** A value that may be absent: the model's stand-in for a C# null reference. */
module Optional {

  datatype Option<+T> = None | Some(value: T)
}

=== FILE: rights.dfy ===
/**
 The rights check of a generated dashboard item (`HasRights`): a decision over
 the platform, the model view handed in, the shortcut's object key and the
 answers of the security system, which stay uninterpreted here.
 */
module Rights {
  import opened Optional
  import opened NavigationTree

  datatype Platform = Win | Web

  /** A type, by name. */
  type TypeRef = string

  /** A persistent object, by identity. */
  type ObjectRef = nat

  /** The model view the check receives: an object view exposes the type of its
      model class, where `None` stands for a model class whose `TypeInfo.Type`
      is null (a null model class itself is not modelled); any other view
      exposes no type. */
  datatype ModelView = ObjectView(classType: Option<TypeRef>) | OtherView

  /** Looking an object up by key in a fresh object space either throws or
      yields an object. */
  datatype Resolution = Throws | Resolved(obj: ObjectRef)

  /** The answer of a per-object security query: it throws, or it grants or
      denies. */
  datatype Answer = Raises | Gives(granted: bool)

  /** The oracles the check consults: object lookup, `CanRead` and `CanNavigate`
      on an object, whether disposing the object space throws, and `CanNavigate`
      on a type alone. */
  datatype Security = Security(
    resolve: (TypeRef, string) -> Resolution,
    canRead: (TypeRef, ObjectRef) -> Answer,
    canNavigate: (TypeRef, ObjectRef) -> Answer,
    disposeRaises: bool,
    canNavigateType: TypeRef -> bool)

  /** The result of a check: a decision, with whether a redirect to the site root
      was issued on the way; or the configuration error thrown on the desktop
      platform when the view is missing, naming the view and the shortcut. */
  datatype RightsOutcome =
    | Decided(visible: bool, redirected: bool)
    | MissingView(viewId: string, shortcut: Shortcut)

  /** A key that names an object literally: non-empty and not `@`-prefixed.
      The `@` test at line 104 of the controller is culture-sensitive; the model
      compares the first character ordinally. The two differ only for keys that
      begin with a culture-ignorable code point, which `Oid` text never does. */
  predicate IsLiteralKey(key: string) {
    |key| > 0 && key[0] != '@'
  }

  /** The type the check works with: the model class of an object view. */
  function TypeOf(view: Option<ModelView>): Option<TypeRef> {
    match view
    case Some(ObjectView(t)) => t
    case _ => None
  }

  /** Whether the check ends in a decision rather than an error. */
  predicate Decides(platform: Platform, view: Option<ModelView>) {
    !(platform == Win && view.None?)
  }

  /** The guarded block of the check for a literal key: look the object up,
      ask `CanRead` and, only when reading is granted, `CanNavigate`, then
      dispose the object space. `Raises` when any step throws. */
  function ObjectCheck(sec: Security, t: TypeRef, key: string): (r: Answer)
    ensures r.Gives? ==> !sec.disposeRaises && sec.resolve(t, key).Resolved?
    ensures r == Gives(false) <==>
      && !sec.disposeRaises
      && sec.resolve(t, key).Resolved?
      && var o := sec.resolve(t, key).obj;
         || sec.canRead(t, o) == Gives(false)
         || (sec.canRead(t, o) == Gives(true) && sec.canNavigate(t, o) == Gives(false))
  {
    match sec.resolve(t, key)
    case Throws => Raises
    case Resolved(o) =>
      var answer :=
        match sec.canRead(t, o)
        case Raises => Raises
        case Gives(false) => Gives(false)
        case Gives(true) => sec.canNavigate(t, o);
      if sec.disposeRaises then Raises else answer
  }

  function HasRights(platform: Platform, view: Option<ModelView>, sc: Shortcut, sec: Security): (r: RightsOutcome)
    ensures r.MissingView? <==> !Decides(platform, view)
    ensures r.MissingView? ==> r.viewId == sc.viewId && r.shortcut == sc
    ensures r.Decided? ==> (r.redirected <==> view.None?)
    ensures r.Decided? && TypeOf(view).None? ==> r.visible
  {
    if view.None? && platform == Win then MissingView(sc.viewId, sc)
    else
      // on the web a missing view redirects, then falls through with no type
      var redirected := view.None?;
      match TypeOf(view)
      case None => Decided(true, redirected)
      case Some(t) =>
        if IsLiteralKey(sc.objectKey) then
          match ObjectCheck(sec, t, sc.objectKey)
          case Raises => Decided(true, redirected)
          case Gives(b) => Decided(b, redirected)
        else Decided(sec.canNavigateType(t), redirected)
  }

  /** The `HasRights` flag value for a check that decides. */
  function Visible(platform: Platform, view: Option<ModelView>, sc: Shortcut, sec: Security): bool
    requires Decides(platform, view)
  {
    HasRights(platform, view, sc, sec).visible
  }

  /** A missing view: the desktop platform fails with a configuration error
      naming the view; the web platform redirects and then shows the item. */
  lemma {:induction false} MissingViewOutcome(platform: Platform, sc: Shortcut, sec: Security)
    ensures platform == Win ==> HasRights(platform, None, sc, sec) == MissingView(sc.viewId, sc)
    ensures platform == Web ==> HasRights(platform, None, sc, sec) == Decided(true, true)
  {
  }

  /** An item is hidden exactly when the security system denies it: with a
      literal key, when the object resolves, the object space disposes cleanly
      and reading is denied, or reading is granted and navigating denied;
      otherwise when navigating to the type is denied. A query that throws
      never hides the item. */
  lemma {:induction false} HiddenExactlyWhenDenied(platform: Platform, view: Option<ModelView>, sc: Shortcut, sec: Security)
    requires Decides(platform, view)
    ensures !Visible(platform, view, sc, sec) <==>
      && TypeOf(view).Some?
      && var t := TypeOf(view).value;
         if IsLiteralKey(sc.objectKey)
         then && sec.resolve(t, sc.objectKey).Resolved?
              && !sec.disposeRaises
              && var o := sec.resolve(t, sc.objectKey).obj;
                 || sec.canRead(t, o) == Gives(false)
                 || (sec.canRead(t, o) == Gives(true) && sec.canNavigate(t, o) == Gives(false))
         else !sec.canNavigateType(t)
  {
  }

  /** Fail-open: when anything inside the guarded block throws (the lookup,
      `CanRead`, a `CanNavigate` that is reached, or disposing the object
      space), the item stays visible. */
  lemma {:induction false} ResolutionFailureFailsOpen(platform: Platform, t: TypeRef, sc: Shortcut, sec: Security)
    requires IsLiteralKey(sc.objectKey)
    requires
      || sec.resolve(t, sc.objectKey) == Throws
      || sec.disposeRaises
      || var o := sec.resolve(t, sc.objectKey).obj;
         || sec.canRead(t, o) == Raises
         || (sec.canRead(t, o) == Gives(true) && sec.canNavigate(t, o) == Raises)
    ensures HasRights(platform, Some(ObjectView(Some(t))), sc, sec) == Decided(true, false)
  {
  }

  /** `CanNavigate` on the object is consulted only when reading is granted: a
      denied read hides the item whatever navigating would have answered. */
  lemma {:induction false} DeniedReadShortCircuits(platform: Platform, t: TypeRef, sc: Shortcut, sec: Security, o: ObjectRef)
    requires IsLiteralKey(sc.objectKey) && !sec.disposeRaises
    requires sec.resolve(t, sc.objectKey) == Resolved(o) && sec.canRead(t, o) == Gives(false)
    ensures HasRights(platform, Some(ObjectView(Some(t))), sc, sec) == Decided(false, false)
  {
  }

  /** With an empty or `@`-prefixed key no object is looked up: the result does
      not depend on the lookup or the per-object oracles. */
  lemma {:induction false} DynamicKeyIgnoresObjects(platform: Platform, view: Option<ModelView>, sc: Shortcut, sec: Security, other: Security)
    requires !IsLiteralKey(sc.objectKey)
    requires other.canNavigateType == sec.canNavigateType
    ensures HasRights(platform, view, sc, other) == HasRights(platform, view, sc, sec)
  {
  }

  /** The security system allows reading and navigating everything. */
  ghost predicate GrantsAll(sec: Security) {
    && (forall t, o :: sec.canRead(t, o) == Gives(true) && sec.canNavigate(t, o) == Gives(true))
    && (forall t :: sec.canNavigateType(t))
  }

  /** A security system that grants everything hides nothing. */
  lemma {:induction false} GrantingSecurityShowsAll(platform: Platform, view: Option<ModelView>, sc: Shortcut, sec: Security)
    requires Decides(platform, view)
    requires GrantsAll(sec)
    ensures Visible(platform, view, sc, sec)
  {
  }
}

=== FILE: stable_sort.dfy ===
/**
 LINQ's `OrderBy` over a nullable integer key: a stable sort in which the
 default comparer puts null before every value and leaves equal keys in their
 input order.
 */
module StableSort {
  import opened Optional

  /** A nullable `int` order key. */
  type Key = Option<int>

  /** The default comparer of `int?`: null is the least key. */
  predicate KeyLe(a: Key, b: Key) {
    a.None? || (b.Some? && a.value <= b.value)
  }

  predicate SortedBy<T>(s: seq<T>, key: T -> Key) {
    forall i, j :: 0 <= i < j < |s| ==> KeyLe(key(s[i]), key(s[j]))
  }

  /** The elements of `s` whose key is `k`, in their order in `s`. */
  function WithKey<T>(s: seq<T>, key: T -> Key, k: Key): seq<T> {
    if |s| == 0 then []
    else (if key(s[0]) == k then [s[0]] else []) + WithKey(s[1..], key, k)
  }

  /** Stability: every run of equal keys keeps its relative order. */
  ghost predicate SameRuns<T>(r: seq<T>, s: seq<T>, key: T -> Key) {
    forall k :: WithKey(r, key, k) == WithKey(s, key, k)
  }

  lemma {:induction false} WithKeyAppend<T>(a: seq<T>, b: seq<T>, key: T -> Key, k: Key)
    ensures WithKey(a + b, key, k) == WithKey(a, key, k) + WithKey(b, key, k)
    decreases |a|
  {
    if |a| > 0 {
      assert (a + b)[0] == a[0];
      assert (a + b)[1..] == a[1..] + b;
      WithKeyAppend(a[1..], b, key, k);
    } else {
      assert a + b == b;
    }
  }

  lemma {:induction false} WithKeyAbsent<T>(s: seq<T>, key: T -> Key, k: Key)
    requires forall i :: 0 <= i < |s| ==> key(s[i]) != k
    ensures WithKey(s, key, k) == []
    decreases |s|
  {
    if |s| > 0 {
      WithKeyAbsent(s[1..], key, k);
    }
  }

  /** Inserts `x` after every element of `t` whose key is not greater than its own. */
  function Insert<T>(x: T, t: seq<T>, key: T -> Key): (r: seq<T>)
    requires SortedBy(t, key)
    ensures SortedBy(r, key)
    ensures |r| == |t| + 1
    ensures r[0] == x || (|t| > 0 && r[0] == t[0])
    decreases |t|
  {
    if |t| == 0 then [x]
    else if !KeyLe(key(t[0]), key(x)) then [x] + t
    else
      var rest := Insert(x, t[1..], key);
      assert SortedBy([t[0]] + rest, key) by {
        assert KeyLe(key(t[0]), key(rest[0]));
      }
      [t[0]] + rest
  }

  lemma {:induction false} InsertKeepsElements<T>(x: T, t: seq<T>, key: T -> Key)
    requires SortedBy(t, key)
    ensures multiset(Insert(x, t, key)) == multiset(t) + multiset{x}
    decreases |t|
  {
    if |t| > 0 && KeyLe(key(t[0]), key(x)) {
      InsertKeepsElements(x, t[1..], key);
      assert t == [t[0]] + t[1..];
    }
  }

  lemma {:induction false} InsertKeepsRuns<T>(x: T, t: seq<T>, key: T -> Key)
    requires SortedBy(t, key)
    ensures SameRuns(Insert(x, t, key), t + [x], key)
    decreases |t|
  {
    if |t| == 0 {
    } else if !KeyLe(key(t[0]), key(x)) {
      forall k
        ensures WithKey([x] + t, key, k) == WithKey(t + [x], key, k)
      {
        WithKeyAppend([x], t, key, k);
        WithKeyAppend(t, [x], key, k);
        if key(x) == k {
          WithKeyAbsent(t, key, k);
        }
      }
    } else {
      var rest := Insert(x, t[1..], key);
      InsertKeepsRuns(x, t[1..], key);
      assert t + [x] == [t[0]] + (t[1..] + [x]);
      forall k
        ensures WithKey([t[0]] + rest, key, k) == WithKey(t + [x], key, k)
      {
        WithKeyAppend([t[0]], rest, key, k);
        WithKeyAppend([t[0]], t[1..] + [x], key, k);
      }
    }
  }

  /** `OrderBy(key)`: insertion sort taking the elements in input order. */
  function SortBy<T>(s: seq<T>, key: T -> Key): (r: seq<T>)
    ensures SortedBy(r, key)
    ensures multiset(r) == multiset(s)
    ensures SameRuns(r, s, key)
    decreases |s|
  {
    if |s| == 0 then []
    else
      var front := s[..|s| - 1];
      var r := Insert(s[|s| - 1], SortBy(front, key), key);
      assert s == front + [s[|s| - 1]];
      InsertKeepsElements(s[|s| - 1], SortBy(front, key), key);
      InsertKeepsRuns(s[|s| - 1], SortBy(front, key), key);
      assert SameRuns(r, s, key) by {
        forall k
          ensures WithKey(r, key, k) == WithKey(s, key, k)
        {
          WithKeyAppend(SortBy(front, key), [s[|s| - 1]], key, k);
          WithKeyAppend(front, [s[|s| - 1]], key, k);
        }
      }
      r
  }

  lemma {:induction false} WithKeyHead<T>(s: seq<T>, key: T -> Key, k: Key)
    requires |s| > 0 && key(s[0]) == k
    ensures WithKey(s, key, k) == [s[0]] + WithKey(s[1..], key, k)
  {
  }

  /** A sorted sequence whose key runs are known is fully determined: sorted
      and stable together specify `OrderBy` uniquely. */
  lemma {:induction false} SortedRunsDetermine<T>(a: seq<T>, b: seq<T>, key: T -> Key)
    requires SortedBy(a, key) && SortedBy(b, key)
    requires SameRuns(a, b, key)
    ensures a == b
    decreases |a| + |b|
  {
    if |a| == 0 || |b| == 0 {
      if |a| > 0 {
        WithKeyHead(a, key, key(a[0]));
        assert false;
      } else if |b| > 0 {
        WithKeyHead(b, key, key(b[0]));
        assert false;
      }
    } else {
      var ka, kb := key(a[0]), key(b[0]);
      assert KeyLe(kb, ka) by {
        WithKeyHead(a, key, ka);
        MemberOfRun(b, key, ka);
      }
      assert KeyLe(ka, kb) by {
        WithKeyHead(b, key, kb);
        MemberOfRun(a, key, kb);
      }
      assert ka == kb;
      WithKeyHead(a, key, ka);
      WithKeyHead(b, key, ka);
      assert WithKey(a, key, ka) == WithKey(b, key, ka);
      assert a[0] == WithKey(a, key, ka)[0] == b[0];
      forall k
        ensures WithKey(a[1..], key, k) == WithKey(b[1..], key, k)
      {
        if k == ka {
          assert WithKey(a, key, k) == WithKey(b, key, k);
          assert WithKey(a[1..], key, k) == WithKey(a, key, k)[1..];
          assert WithKey(b[1..], key, k) == WithKey(b, key, k)[1..];
        } else {
          assert WithKey(a, key, k) == WithKey(a[1..], key, k);
          assert WithKey(b, key, k) == WithKey(b[1..], key, k);
        }
      }
      SortedRunsDetermine(a[1..], b[1..], key);
    }
  }

  /** The stable sort leaves an already sorted sequence as it is. */
  lemma {:induction false} SortOfSorted<T>(s: seq<T>, key: T -> Key)
    requires SortedBy(s, key)
    ensures SortBy(s, key) == s
  {
    SortedRunsDetermine(SortBy(s, key), s, key);
  }

  /** A non-empty run of key `k` in a sorted sequence means its head key is at most `k`. */
  lemma {:induction false} MemberOfRun<T>(s: seq<T>, key: T -> Key, k: Key)
    requires SortedBy(s, key) && |s| > 0
    requires |WithKey(s, key, k)| > 0
    ensures KeyLe(key(s[0]), k)
    decreases |s|
  {
    if key(s[0]) != k {
      assert WithKey(s, key, k) == WithKey(s[1..], key, k);
      MemberOfRun(s[1..], key, k);
      assert KeyLe(key(s[0]), key(s[1]));
    }
  }
}
